=== FILE: README.md ===
# Media route of a music directory server, in Dafny

The server exposes a music directory over HTTP. Its media route
(`routes/media.js`) answers every request under `/media` in one of three ways:

- **Metadata.** With `?tags`, `?info` or `?art` it reads the audio file's
  metadata. The `onmetadata` callback completes the parsed object in place
  and answers with one of: JSON tags, an HTML info page, the first embedded
  picture, or "not found".
- **Regular file.** It computes an entity tag from the file's size and mtime,
  then answers in one of three ways:
  - 304 when `If-None-Match` carries that tag;
  - 206 for a `Range` header, read leniently;
  - the whole file otherwise.

  A HEAD request never gets a body.
- **Directory.** It answers with the JSON listing (`?json`) or with an HTML
  page: a link to the parent, then one link per entry in order, each under
  `/media` with its encoded slashes restored.

This project models those three answers and proves what they promise. The
modules are:

- `Wrappers`: Option.
- `Decimal`: how JavaScript writes integers, and `parseInt` on the pieces
  of a Range header.
- `Strings`: `split`, first-occurrence `replace`, and the `%2F`
  replacement.
- `Http`: the values exchanged, JavaScript truthiness, and a `Response` class whose `setHeader`,
  `end` and helper methods update status, headers and ending in place.
- `Ranges`: the Range header.
- `Delivery`: the regular-file branch.
- `Tags`: the metadata callback, with the metadata object as a class
  updated in place.
- `Listing`: the directory answer and `createprettyhtml`.

Each stateful operation (`ServeFile`, `Complete`, `OnMetadata`,
`CreatePrettyHtml`, `ServeListing`) is a method proved against a function that
describes the whole answer (`Decide`, `Augment`, `Answer`, `PrettyHtml`). The
properties are proved as lemmas about those functions.

Two behaviours of the code differ from what a reader might expect:

- An entity tag would be expected to change with any change of mtime. This
  one is built from `Date.parse(stats.mtime)`, which reads back the Date's
  string form. That form shows whole seconds only, so the tag changes only
  when the size or the second of the mtime changes. `Delivery.ParsedMtime`
  models the rounding, and `Delivery.EtagInjective` states exactly when two
  tags are equal.
- Section 2.1 of RFC 7233 reads the suffix form `bytes=-n` as the last n
  bytes. The code reads it as bytes 0..n. It also reads an end of 0 as the
  last byte, and it checks no bound against the file size.
  `Ranges.RangeSuffixForm`, `Ranges.RangeZeroEnd` and
  `Ranges.RangeOfNumerals` state what the code does.

## Model

| member | source | states |
|---|---|---|
| Decimal.NatToString | routes/media.js:86 | a size is written as a non-empty run of decimal digits, with a leading 0 only for zero itself |
| Decimal.DigitsValueOfNatToString | routes/media.js:86 | the digits written for n have the value n |
| Decimal.NatToStringInjective | routes/media.js:86 | different sizes are written differently |
| Decimal.IntToStringInjective | routes/media.js:86 | different (possibly negative) mtime values are written differently |
| Decimal.IntToString | routes/media.js:86 | an integer is written as a non-empty string that starts with '-' exactly when it is negative |
| Decimal.ParseInt | routes/media.js:99-100 | after leading white space and an optional '+', the piece is a number exactly when a digit follows; otherwise it is NaN (None), so an empty or non-numeric piece is NaN |
| Decimal.ParseIntOfNatToString | routes/media.js:99-100 | parseInt reads back exactly the number JavaScript wrote |
| Decimal.ParseIntIgnoresTail | routes/media.js:99-100 | a numeral followed by something that is not a digit reads as that numeral |
| Decimal.ParseIntSkipsSpace | routes/media.js:99-100 | leading white space and line terminators do not change what parseInt reads |
| Strings.Split | routes/media.js:95 | split gives at least one piece, and no piece holds the separator |
| Strings.JoinSplit | routes/media.js:95 | joining the pieces with the separator gives back the split string |
| Strings.SplitJoin | routes/media.js:95 | splitting separator-free pieces joined by the separator gives back those pieces |
| Strings.FindFrom | routes/media.js:95 | the result is an occurrence at or after the start, and no earlier occurrence exists |
| Strings.ReplaceFirst | routes/media.js:95 | a string without the pattern is unchanged, and the leftmost occurrence, wherever it is, is replaced while the text around it is kept |
| Strings.UnescapeSlashes | routes/media.js:164 | the replacement never lengthens the name |
| Strings.EscapeUnescapeSlashes | routes/media.js:164 | for an encoded name (no "/"), turning "/" back into "%2F" recovers the encoding |
| Strings.UnescapeSlashesLeavesNone | routes/media.js:164 | no "%2F" is left after the global replacement, not even one formed across a replaced slash |
| Ranges.RangePieces | routes/media.js:95 | the header minus "bytes=" splits into at least one piece, each without '-' |
| Ranges.EndOf | routes/media.js:100-104 | a missing, NaN (non-numeric included) or zero end falls back to the file's last byte; any other end is the number read |
| Ranges.ParseRange | routes/media.js:95-104 | the start is parseInt of the first piece, 0 when that is NaN; the end is EndOf the second piece, the last byte when there is none |
| Ranges.RangeNonNumericEnd | routes/media.js:100-104 | `bytes=a-y` with a non-numeric y selects a to the last byte |
| Ranges.RangeNonNumericStart | routes/media.js:99-102 | `bytes=x-b` with a non-numeric x and b != 0 selects 0 to b |
| Ranges.ContentRange | routes/media.js:108 | Content-Range begins with the unit "bytes " (its numbers for `bytes=a-b` are stated in Delivery.PartialContentForValidRange) |
| Ranges.ChunkSize | routes/media.js:105 | the announced length is at most end + 1, and at least 1 when start <= end |
| Ranges.RangeOfNumerals | routes/media.js:95-104 | `bytes=a-b` with b != 0 selects exactly [a, b] for any file size, unclamped |
| Ranges.RangeZeroEnd | routes/media.js:100-104 | `bytes=a-0` runs from a to the last byte |
| Ranges.RangeOpenEnd | routes/media.js:97-104 | `bytes=a-` runs from a to the last byte |
| Ranges.RangeSuffixForm | routes/media.js:95-104 | `bytes=-n` selects bytes 0..n, not the last n bytes |
| Ranges.RangeWithoutDash | routes/media.js:95-104 | a header with no '-' after the unit starts at parseInt of the rest (0 for NaN) and runs to the last byte |
| Ranges.ChunkSizeOfValidRange | routes/media.js:105 | for a range inside the file, Content-Length is b - a + 1, between 1 and the size |
| Delivery.ParsedMtime | routes/media.js:86 | the mtime read back by Date.parse is a whole second, at most 999 ms before the mtime |
| Delivery.Etag | routes/media.js:86 | the entity tag is quoted |
| Delivery.EtagInjective | routes/media.js:86 | two tags are equal exactly when the sizes are equal and the mtimes fall in the same second |
| Delivery.HasRange | routes/media.js:94 | a Range header counts exactly when it is present and its value is truthy, by the same truthiness the metadata callback uses |
| Delivery.Decide | routes/media.js:86-132 | 304 exactly when If-None-Match equals the tag, 206 exactly when it does not and a Range is present, otherwise no status is written |
| Delivery.LastModifiedAlways | routes/media.js:87 | every answer carries the mtime as Last-Modified |
| Delivery.RangeHeaders | routes/media.js:107-112 | a partial answer sets exactly Last-Modified, Content-Range, Accept-Ranges, Content-Length, Content-Type and ETag |
| Delivery.FullHeaders | routes/media.js:121-124 | a full answer sets exactly Last-Modified, Access-Control-Allow-Origin, Content-Length, Content-Type and ETag |
| Delivery.ServeFile | routes/media.js:85-132 | the status is written only for 304 and 206, the headers are the old ones overridden by the decided ones, and the response is ended with the decided body |
| Delivery.NotModifiedTakesPrecedence | routes/media.js:91-93 | a matching If-None-Match gets 304, no body and only Last-Modified, even with a Range |
| Delivery.HeadHasNoBody | routes/media.js:113-126 | HEAD gets no body on any branch |
| Delivery.RangeResponse | routes/media.js:94-119 | any non-empty Range without a matching tag gets 206, with the parsed bounds, length, the looked-up Content-Type and the byte slice |
| Delivery.RangeHeaderValues | routes/media.js:87-111 | Content-Range, Content-Length, Accept-Ranges, Content-Type and Last-Modified carry the range, its length, "bytes", the looked-up MIME type and the mtime |
| Delivery.PartialContentForValidRange | routes/media.js:94-119 | `bytes=a-b` inside the file gets 206, Content-Length b - a + 1, Content-Range "bytes a-b/size" and for GET bytes a..b |
| Delivery.FullFileWithoutRange | routes/media.js:120-131 | without a Range the status stays as it was, Content-Length is the size, Content-Type the looked-up MIME type, and any origin is allowed |
| Delivery.EtagUnlessNotModified | routes/media.js:91-124 | every answer but 304 carries the current entity tag, and 304 carries none |
| Delivery.CorsOnlyOnFullFile | routes/media.js:120-121 | Access-Control-Allow-Origin is set exactly on the full answer, the only one that leaves the status alone |
| Delivery.EmptyRangeIsNoRange | routes/media.js:94 | an empty Range header is treated as no Range header |
| Tags.FirstPicture | routes/media.js:62-63 | there is a first picture exactly when the picture list is not empty |
| Tags.ArtType | routes/media.js:66 | the artwork Content-Type always starts with "image/" |
| Tags.Final | routes/media.js:50-59 | the tags answer drops only the picture; the info answer adds only size; every other field is kept |
| Tags.Answer | routes/media.js:50-70 | a Content-Type is set exactly when a body is sent, and the only other ending is not found |
| Tags.Augment | routes/media.js:45-48 | the completed object has the parsed keys plus picture, request, basename and haspicture; a truthy parsed picture is kept, and every other parsed field is kept |
| Tags.Complete | routes/media.js:45-48 | the in-place updates leave the object as Augment describes |
| Tags.OnMetadata | routes/media.js:43-71 | the object and the response end as Final and Answer describe: only Content-Type may be set, and the route writes no status itself (the not-found helper's own 404 is represented by its ending) |
| Tags.ModePriority | routes/media.js:50-70 | exactly one answer, chosen in the order tags, info, art, not found |
| Tags.HasPictureIffPictures | routes/media.js:48 | haspicture is true exactly when the parsed picture list is not empty |
| Tags.MissingPictureIsEmpty | routes/media.js:45-48 | a missing or falsy picture becomes an empty list, and haspicture is false |
| Tags.TagsOmitPictures | routes/media.js:50-54 | the tags answer is JSON without the picture, keeping every other field |
| Tags.InfoCarriesSize | routes/media.js:55-59 | the info answer renders the completed object, pictures included, with the size |
| Tags.ArtWithoutPictureIsNotFound | routes/media.js:60-64 | art without a first picture is not found, with no header |
| Tags.ArtIsFirstPicture | routes/media.js:60-67 | art sends the first picture's bytes as "image/<format>", or "image/xyz" without a format |
| Listing.LinkShape | routes/media.js:161-162 | a link is the anchor tag with the target, then the text, then "</a>" and a newline |
| Listing.EntryName | routes/media.js:165-168 | the link text is the basename, followed by "/" exactly for a directory |
| Listing.PageFrame | routes/media.js:156-175 | whatever the entries, the page opens with the fixed head and closes with the fixed tail |
| Listing.EntryUrl | routes/media.js:164-167 | every link target lies under /media |
| Listing.LinkParts | routes/media.js:164-169 | the in-place building of target and text gives EntryUrl and EntryName |
| Listing.CreatePrettyHtml | routes/media.js:156-176 | the page built by appending is the head, the parent link, one link per entry in order, then the tail |
| Listing.ListingOrder | routes/media.js:163-171 | each entry's link comes after the links of the entries before it and before those after it |
| Listing.DirectoryGetsSlash | routes/media.js:166-169 | a directory's target and text are a file's with a trailing "/" |
| Listing.EntryUrlRecoversEncoding | routes/media.js:164 | when the encoder writes no "/", escaping the target's slashes again gives the encoded name |
| Listing.ServeListing | routes/media.js:140-150 | the json flag chooses the JSON listing or the HTML page, with the matching Content-Type |
| Http.Response.SetHeader | routes/media.js:87-124 | setting a header overrides that one name and changes nothing else |
| Http.Response.End | routes/media.js:93-126 | ending sends the given body and leaves status and headers alone |
| Http.Response.NotFound | routes/media.js:64-69 | the not-found helper ends the response; the status and headers the route wrote stay, and the helper's own writes, its 404 included, are represented only by the `NotFoundSent` ending |

## Left out

- Reading the file: the read streams, `pipe` and the close handlers (lines 28-40, 116-118, 128-130). The body is represented by the stream that is opened (`FileSlice`, `WholeFile`), not by the bytes it sends.
- Delivery.RangeResponse: `FileSlice(s, e)` is only the plan for the read stream. When s > e, the stream refuses to open after the 206 status and headers are set, and the response is never ended. Examples are `bytes=500-100`, `bytes=5-` on a 3-byte file, or, on an empty file, a Range whose end falls back to the last byte (the end is then -1), such as `bytes=0-` or `bytes=5`. The model still reports the ending `Sent(FileSlice(s, e))`.
- The dispatch between the three answers: `tags || art || info` (line 26) and `!stats.isDirectory()` (line 85). Each answer is modelled as its own operation, and the caller chooses one.
- The musicmetadata parser and its error event (lines 29-33). The parsed object is an input.
- `fs.stat` and `statall` (lines 77-83, 137-138), including their error paths to `res.error()`. The file's size, mtime and directory listing are inputs.
- Mapping the URL to a file (lines 16-17) and reading the query flags (lines 19-23). The flags are inputs.
- `mime.lookup`, `encodeURIComponent` and `path.basename`. They are parameters.
- `JSON.stringify` and `ejs.render`. They are represented by the `JsonRecord`, `JsonListing` and `InfoPage` bodies.
- `Date.parse` and the Date's string form. The mtime in milliseconds and the Last-Modified text are inputs. Only the rounding to whole seconds is modelled.
- `+size` (line 57). The size query value is passed as an already converted `Value`.
- `console.error` logging, and the internals of the server's `res.error()` and `res.notfound()` helpers. `res.notfound()` is the `NotFoundSent` ending. The paths to `res.error()` (stream, stat and statall errors) are not modelled.
- Http.Response.NotFound: `status` records only what the route itself writes. The `res.notfound()` helper's own writes, its 404 status included, are not modelled; they are represented only by the `NotFoundSent` ending. The helper's code is not part of this model.
- Floating point: numbers beyond 2^53, and their exponent form when written into headers.
- Case-insensitive header names. All names written here differ in more than case.
- Decimal.ParseInt: requires a piece without '-', so parseInt's sign is not modelled. Every piece comes from `split('-')`, so none contains one.
- Tags.FirstPicture: any truthy picture value that is not a `Pictures` list is treated as having no first picture. This covers a string, an object, or an `Items` list such as `[5]`. The code would index into such a value. When the element it finds is truthy, the code sets `image/xyz` and ends the response with that element instead of answering not found. `Tags.ArtWithoutPictureIsNotFound` inherits this gap. An object value (`Obj`) does count its keys for haspicture (line 48).

=== FILE: decimal.dfy ===
/**
 * Decimal numerals as JavaScript writes and reads them for integers:
 * `String(n)` when a number is concatenated to a string, and
 * `parseInt(s, 10)` on the pieces of a Range header.
 */
module Decimal {
  import opened Wrappers

  predicate IsDigit(c: char) {
    '0' <= c <= '9'
  }

  predicate AllDigits(s: string) {
    forall i :: 0 <= i < |s| ==> IsDigit(s[i])
  }

  function DigitChar(d: nat): (c: char)
    requires d < 10
    ensures IsDigit(c)
  {
    ('0' as int + d) as char
  }

  function DigitValue(c: char): (d: nat)
    requires IsDigit(c)
    ensures d < 10 && DigitChar(d) == c
  {
    c as int - '0' as int
  }

  /** The numeral JavaScript writes for a non-negative integer: digits only, no leading zero. */
  function NatToString(n: nat): (s: string)
    ensures |s| >= 1 && AllDigits(s)
    ensures s[0] == '0' ==> n == 0
    decreases n
  {
    if n < 10 then [DigitChar(n)] else NatToString(n / 10) + [DigitChar(n % 10)]
  }

  /** The numeral JavaScript writes for an integer: a '-' in front exactly for negatives. */
  function IntToString(i: int): (s: string)
    ensures |s| >= 1
    ensures s[0] == '-' <==> i < 0
  {
    if i < 0 then "-" + NatToString(-i) else NatToString(i)
  }

  /** The value of a run of decimal digits, most significant digit first. */
  function DigitsValue(s: string): nat
    requires AllDigits(s)
  {
    if s == [] then 0 else DigitsValue(s[..|s| - 1]) * 10 + DigitValue(s[|s| - 1])
  }

  lemma {:induction false} DigitsValueOfNatToString(n: nat)
    ensures DigitsValue(NatToString(n)) == n
    decreases n
  {
    if n >= 10 {
      var s := NatToString(n);
      assert s[..|s| - 1] == NatToString(n / 10);
      DigitsValueOfNatToString(n / 10);
    }
  }

  /** Distinct naturals are written differently. */
  lemma NatToStringInjective(m: nat, n: nat)
    requires NatToString(m) == NatToString(n)
    ensures m == n
  {
    DigitsValueOfNatToString(m);
    DigitsValueOfNatToString(n);
  }

  /** Distinct integers are written differently. */
  lemma IntToStringInjective(i: int, j: int)
    requires IntToString(i) == IntToString(j)
    ensures i == j
  {
    if i < 0 {
      assert NatToString(-i) == IntToString(i)[1..] == IntToString(j)[1..] == NatToString(-j);
      NatToStringInjective(-i, -j);
    } else {
      NatToStringInjective(i, j);
    }
  }

  /** The white space and line terminators `parseInt` skips before a numeral. */
  predicate IsJsSpace(c: char) {
    || c == ' ' || c == '\t' || c == '\n' || c == '\r'
    || c as int == 0x0B || c as int == 0x0C || c as int == 0xA0 || c as int == 0x1680
    || (0x2000 <= c as int <= 0x200A)
    || c as int == 0x2028 || c as int == 0x2029 || c as int == 0x202F
    || c as int == 0x205F || c as int == 0x3000 || c as int == 0xFEFF
  }

  /** s without its leading white space. */
  function TrimStart(s: string): (r: string)
    ensures |r| <= |s| && r == s[|s| - |r|..]
    ensures r == [] || !IsJsSpace(r[0])
    ensures forall i :: 0 <= i < |s| - |r| ==> IsJsSpace(s[i])
  {
    if s != [] && IsJsSpace(s[0]) then TrimStart(s[1..]) else s
  }

  /** The longest prefix of s made of decimal digits. */
  function LeadingDigits(s: string): (d: string)
    ensures AllDigits(d) && d <= s
    ensures |d| < |s| ==> !IsDigit(s[|d|])
  {
    if s != [] && IsDigit(s[0]) then [s[0]] + LeadingDigits(s[1..]) else []
  }

  /**
   * `parseInt(s, 10)` on a string that holds no '-' (the pieces of a header
   * split on '-'): skip leading white space and one '+', read the longest run
   * of digits; no digit at all is NaN, here None.
   */
  function ParseInt(s: string): (r: Option<nat>)
    requires '-' !in s
    ensures s == [] ==> r == None
    ensures s != [] && IsDigit(s[0]) ==> r.Some?
    ensures NonNumeric(s) ==> r == None
    ensures var t := TrimStart(s);
      var u := if t != [] && t[0] == '+' then t[1..] else t;
      r.Some? <==> u != [] && IsDigit(u[0])
  {
    ParseUnsigned(TrimStart(s))
  }

  /** A string parseInt reads as NaN at a glance: it starts with neither white space, nor '+', nor a digit. */
  predicate NonNumeric(s: string) {
    s != [] && !IsJsSpace(s[0]) && s[0] != '+' && !IsDigit(s[0])
  }

  /** What parseInt reads once the white space is skipped: one optional '+', then digits. */
  function ParseUnsigned(t: string): Option<nat> {
    var u := if t != [] && t[0] == '+' then t[1..] else t;
    var d := LeadingDigits(u);
    if d == [] then None else Some(DigitsValue(d))
  }

  /** A numeral followed by anything that does not continue it reads as that numeral. */
  lemma ParseIntIgnoresTail(d: string, tail: string)
    requires d != [] && AllDigits(d) && '-' !in d + tail
    requires tail == [] || !IsDigit(tail[0])
    ensures ParseInt(d + tail) == Some(DigitsValue(d))
  {
    var s := d + tail;
    assert s[0] == d[0] && IsDigit(s[0]);
    assert !IsJsSpace(s[0]) && s[0] != '+';
    assert TrimStart(s) == s;
    LeadingDigitsOfNumeral(d, tail);
    assert LeadingDigits(s) == d;
  }

  lemma {:induction false} LeadingDigitsOfNumeral(d: string, tail: string)
    requires AllDigits(d)
    requires tail == [] || !IsDigit(tail[0])
    ensures LeadingDigits(d + tail) == d
  {
    if d != [] {
      assert (d + tail)[1..] == d[1..] + tail;
      LeadingDigitsOfNumeral(d[1..], tail);
    }
  }

  /** Reading back what JavaScript writes: parseInt(String(n)) == n. */
  lemma ParseIntOfNatToString(n: nat)
    ensures ParseInt(NatToString(n)) == Some(n)
  {
    var s := NatToString(n);
    assert s + [] == s;
    ParseIntIgnoresTail(s, []);
    DigitsValueOfNatToString(n);
  }

  /** Leading white space does not change what parseInt reads. */
  lemma {:induction false} ParseIntSkipsSpace(w: string, s: string)
    requires forall i :: 0 <= i < |w| ==> IsJsSpace(w[i])
    requires '-' !in w + s
    ensures '-' !in s && ParseInt(w + s) == ParseInt(s)
  {
    assert forall c :: c in s ==> c in w + s;
    TrimStartAfterSpace(w, s);
    assert ParseInt(w + s) == ParseUnsigned(TrimStart(w + s));
  }

  lemma {:induction false} TrimStartAfterSpace(w: string, s: string)
    requires forall i :: 0 <= i < |w| ==> IsJsSpace(w[i])
    ensures TrimStart(w + s) == TrimStart(s)
  {
    if w != [] {
      assert (w + s)[0] == w[0];
      assert (w + s)[1..] == w[1..] + s;
      TrimStartAfterSpace(w[1..], s);
    } else {
      assert w + s == s;
    }
  }
}

=== FILE: delivery.dfy ===
/**
 * Delivery of a regular file (routes/media.js, inside the stat callback):
 * the entity tag, the conditional check on If-None-Match, the partial
 * response for a Range header and the full response otherwise. The file's
 * size and modification time, the request's method and headers and the
 * MIME type looked up for the path are inputs; the streams that carry the
 * bytes are represented by the body they are opened for.
 */
module Delivery {
  import opened Wrappers
  import opened Decimal
  import opened Strings
  import opened Ranges
  import opened Http

  /** What fs.stat reports of the file: size, mtime as milliseconds since the epoch and the mtime Date's string form. */
  datatype FileStat = FileStat(size: nat, mtimeMs: int, mtimeText: string)

  /** The parts of the request the delivery reads; an absent header is None. */
  datatype Request = Request(verb: string, ifNoneMatch: Option<string>, range: Option<string>)

  /** What the delivery does to the response: the status it writes (None: left as it was), the headers it sets, the body it ends with. */
  datatype Decision = Decision(status: Option<int>, headers: map<string, string>, body: Body)

  /**
   * `Date.parse(stats.mtime)`: the Date is first turned into its string
   * form, which shows whole seconds only, so the value read back is the
   * mtime rounded down to the second.
   */
  function ParsedMtime(mtimeMs: int): (t: int)
    ensures t % 1000 == 0 && t <= mtimeMs < t + 1000
  {
    mtimeMs / 1000 * 1000
  }

  /** The entity tag `"<size>-<parsed mtime>"`, quoted. */
  function Etag(size: nat, mtimeMs: int): (tag: string)
    ensures |tag| >= 5 && tag[0] == '"' && tag[|tag| - 1] == '"'
  {
    "\"" + NatToString(size) + "-" + IntToString(ParsedMtime(mtimeMs)) + "\""
  }

  /** Two pieces free of sep, each followed by sep, can only be equal pieces with equal tails. */
  lemma SplitAtFirst(x: string, u: string, y: string, v: string, sep: char)
    requires sep !in x && sep !in y
    requires x + [sep] + u == y + [sep] + v
    ensures x == y && u == v
  {
    assert x + [sep] + u == x + ([sep] + u);
    assert y + [sep] + v == y + ([sep] + v);
    SplitAfterPiece(x, [sep] + u, sep);
    SplitAfterPiece(y, [sep] + v, sep);
    assert ([sep] + u)[1..] == u;
    assert ([sep] + v)[1..] == v;
    assert Split(x + ([sep] + u), sep)[0] == x;
    assert Split(y + ([sep] + v), sep)[0] == y;
    assert u == (x + [sep] + u)[|x| + 1..];
    assert v == (y + [sep] + v)[|y| + 1..];
  }

  /**
   * Two files get the same entity tag exactly when they have the same size
   * and their mtimes fall in the same second: a change of size or of the
   * mtime's second changes the tag, a change within the second does not.
   */
  lemma EtagInjective(size1: nat, mtime1: int, size2: nat, mtime2: int)
    ensures Etag(size1, mtime1) == Etag(size2, mtime2) <==> size1 == size2 && mtime1 / 1000 == mtime2 / 1000
  {
    if Etag(size1, mtime1) == Etag(size2, mtime2) {
      var x, u := NatToString(size1), IntToString(ParsedMtime(mtime1));
      var y, v := NatToString(size2), IntToString(ParsedMtime(mtime2));
      var t1, t2 := Etag(size1, mtime1), Etag(size2, mtime2);
      assert t1[1..|t1| - 1] == x + ['-'] + u;
      assert t2[1..|t2| - 1] == y + ['-'] + v;
      NumeralHasNoDash(size1);
      NumeralHasNoDash(size2);
      SplitAtFirst(x, u, y, v, '-');
      NatToStringInjective(size1, size2);
      IntToStringInjective(ParsedMtime(mtime1), ParsedMtime(mtime2));
    }
  }

  /** `if (range)`: a Range header counts only when it is present and not empty. */
  predicate HasRange(req: Request)
    ensures HasRange(req) <==> req.range.Some? && Truthy(Text(req.range.value))
  {
    req.range.Some? && req.range.value != ""
  }

  /** The headers of a partial answer for the range r, in the order they are set. */
  function RangeHeaders(st: FileStat, r: ByteRange, contentType: string): (h: map<string, string>)
    ensures h.Keys == {"Last-Modified", "Content-Range", "Accept-Ranges", "Content-Length", "Content-Type", "ETag"}
  {
    map["Last-Modified" := st.mtimeText]["Content-Range" := ContentRange(r, st.size)]["Accept-Ranges" := "bytes"]
      ["Content-Length" := IntToString(ChunkSize(r))]["Content-Type" := contentType]["ETag" := Etag(st.size, st.mtimeMs)]
  }

  /** The headers of a full answer, in the order they are set. */
  function FullHeaders(st: FileStat, contentType: string): (h: map<string, string>)
    ensures h.Keys == {"Last-Modified", "Access-Control-Allow-Origin", "Content-Length", "Content-Type", "ETag"}
  {
    map["Last-Modified" := st.mtimeText]["Access-Control-Allow-Origin" := "*"]["Content-Length" := NatToString(st.size)]
      ["Content-Type" := contentType]["ETag" := Etag(st.size, st.mtimeMs)]
  }

  /** The response the delivery produces. */
  function Decide(st: FileStat, req: Request, contentType: string): (d: Decision)
    ensures d.status == Some(304) <==> req.ifNoneMatch == Some(Etag(st.size, st.mtimeMs))
    ensures d.status == Some(206) <==> req.ifNoneMatch != Some(Etag(st.size, st.mtimeMs)) && HasRange(req)
    ensures d.status.None? || d.status == Some(304) || d.status == Some(206)
  {
    if req.ifNoneMatch == Some(Etag(st.size, st.mtimeMs)) then
      Decision(Some(304), map["Last-Modified" := st.mtimeText], Empty)
    else if HasRange(req) then
      var r := ParseRange(req.range.value, st.size);
      Decision(Some(206), RangeHeaders(st, r, contentType), if req.verb == "HEAD" then Empty else FileSlice(r.start, r.end))
    else
      Decision(None, FullHeaders(st, contentType), if req.verb == "HEAD" then Empty else WholeFile)
  }

  /** The delivery branch: writes the status and headers onto `res` and ends it. */
  method ServeFile(res: Response, st: FileStat, req: Request, contentType: string)
    modifies res
    ensures res.status == Decide(st, req, contentType).status.GetOr(old(res.status))
    ensures res.headers == old(res.headers) + Decide(st, req, contentType).headers
    ensures res.ending == Sent(Decide(st, req, contentType).body)
  {
    var etag := Etag(st.size, st.mtimeMs);
    ghost var written: map<string, string> := map[];
    assert res.headers == old(res.headers) + written;
    res.SetHeader("Last-Modified", st.mtimeText);
    SetAfterUnion(old(res.headers), written, "Last-Modified", st.mtimeText);
    written := written["Last-Modified" := st.mtimeText];
    assert res.headers == old(res.headers) + written;
    if req.ifNoneMatch == Some(etag) {
      res.status := 304;
      res.End(Empty);
      assert Decide(st, req, contentType) == Decision(Some(304), written, Empty);
    } else if HasRange(req) {
      var r := ParseRange(req.range.value, st.size);
      var chunkSize := ChunkSize(r);
      res.status := 206;
      res.SetHeader("Content-Range", ContentRange(r, st.size));
      SetAfterUnion(old(res.headers), written, "Content-Range", ContentRange(r, st.size));
      written := written["Content-Range" := ContentRange(r, st.size)];
      assert res.headers == old(res.headers) + written;
      res.SetHeader("Accept-Ranges", "bytes");
      SetAfterUnion(old(res.headers), written, "Accept-Ranges", "bytes");
      written := written["Accept-Ranges" := "bytes"];
      assert res.headers == old(res.headers) + written;
      res.SetHeader("Content-Length", IntToString(chunkSize));
      SetAfterUnion(old(res.headers), written, "Content-Length", IntToString(chunkSize));
      written := written["Content-Length" := IntToString(chunkSize)];
      assert res.headers == old(res.headers) + written;
      res.SetHeader("Content-Type", contentType);
      SetAfterUnion(old(res.headers), written, "Content-Type", contentType);
      written := written["Content-Type" := contentType];
      assert res.headers == old(res.headers) + written;
      res.SetHeader("ETag", etag);
      SetAfterUnion(old(res.headers), written, "ETag", etag);
      written := written["ETag" := etag];
      assert res.headers == old(res.headers) + written;
      ghost var body := if req.verb == "HEAD" then Empty else FileSlice(r.start, r.end);
      if req.verb == "HEAD" {
        res.End(Empty);
      } else {
        res.End(FileSlice(r.start, r.end));
      }
      assert Decide(st, req, contentType) == Decision(Some(206), written, body);
    } else {
      res.SetHeader("Access-Control-Allow-Origin", "*");
      SetAfterUnion(old(res.headers), written, "Access-Control-Allow-Origin", "*");
      written := written["Access-Control-Allow-Origin" := "*"];
      assert res.headers == old(res.headers) + written;
      res.SetHeader("Content-Length", NatToString(st.size));
      SetAfterUnion(old(res.headers), written, "Content-Length", NatToString(st.size));
      written := written["Content-Length" := NatToString(st.size)];
      assert res.headers == old(res.headers) + written;
      res.SetHeader("Content-Type", contentType);
      SetAfterUnion(old(res.headers), written, "Content-Type", contentType);
      written := written["Content-Type" := contentType];
      assert res.headers == old(res.headers) + written;
      res.SetHeader("ETag", etag);
      SetAfterUnion(old(res.headers), written, "ETag", etag);
      written := written["ETag" := etag];
      assert res.headers == old(res.headers) + written;
      ghost var body := if req.verb == "HEAD" then Empty else WholeFile;
      if req.verb == "HEAD" {
        res.End(Empty);
      } else {
        res.End(WholeFile);
      }
      assert Decide(st, req, contentType) == Decision(None, written, body);
    }
  }

  /** Setting a header on top of earlier ones is the same as adding it to the ones written so far. */
  lemma SetAfterUnion(m: map<string, string>, written: map<string, string>, k: string, v: string)
    ensures (m + written)[k := v] == m + written[k := v]
  {
  }

  /**
   * A request carrying the current entity tag gets 304 with no body and only
   * Last-Modified, whatever its method and even when it also has a Range.
   */
  lemma NotModifiedTakesPrecedence(st: FileStat, req: Request, contentType: string)
    requires req.ifNoneMatch == Some(Etag(st.size, st.mtimeMs))
    ensures var d := Decide(st, req, contentType);
      && d.status == Some(304)
      && d.body == Empty
      && d.headers == map["Last-Modified" := st.mtimeText]
  {
  }

  /** Every answer carries the mtime as Last-Modified. */
  lemma LastModifiedAlways(st: FileStat, req: Request, contentType: string)
    ensures var d := Decide(st, req, contentType);
      "Last-Modified" in d.headers && d.headers["Last-Modified"] == st.mtimeText
  {
    if req.ifNoneMatch == Some(Etag(st.size, st.mtimeMs)) {
    } else if HasRange(req) {
      RangeHeaderValues(st, ParseRange(req.range.value, st.size), contentType);
    } else {
      var h := FullHeaders(st, contentType);
      assert h["Last-Modified"] == st.mtimeText by {
        assert "Last-Modified"[0] == 'L' && "ETag"[0] == 'E';
        assert "Access-Control-Allow-Origin"[0] == 'A' && "Content-Length"[0] == 'C' && "Content-Type"[0] == 'C';
      }
    }
  }

  /** A HEAD request never gets a body: not on 304, not on 206, not on the full response. */
  lemma HeadHasNoBody(st: FileStat, req: Request, contentType: string)
    requires req.verb == "HEAD"
    ensures Decide(st, req, contentType).body == Empty
  {
  }

  /**
   * Any non-empty Range header without a matching tag gets 206 and announces
   * the range it parses to: its bounds in Content-Range, its length in
   * Content-Length, byte ranges as accepted, and for GET exactly those bytes.
   */
  lemma RangeResponse(st: FileStat, req: Request, contentType: string)
    requires req.ifNoneMatch != Some(Etag(st.size, st.mtimeMs))
    requires HasRange(req)
    ensures var d := Decide(st, req, contentType);
      var r := ParseRange(req.range.value, st.size);
      && d.status == Some(206)
      && d.headers["Content-Length"] == IntToString(ChunkSize(r))
      && d.headers["Content-Range"] == ContentRange(r, st.size)
      && d.headers["Accept-Ranges"] == "bytes"
      && d.headers["Content-Type"] == contentType
      && d.body == if req.verb == "HEAD" then Empty else FileSlice(r.start, r.end)
  {
    var r := ParseRange(req.range.value, st.size);
    RangeHeaderValues(st, r, contentType);
  }

  /** What the partial answer's headers say about the range. */
  lemma RangeHeaderValues(st: FileStat, r: ByteRange, contentType: string)
    ensures var h := RangeHeaders(st, r, contentType);
      && h["Content-Length"] == IntToString(ChunkSize(r))
      && h["Content-Range"] == ContentRange(r, st.size)
      && h["Accept-Ranges"] == "bytes"
      && h["Content-Type"] == contentType
      && h["Last-Modified"] == st.mtimeText
  {
    assert "Accept-Ranges"[0] != "Content-Range"[0];
    assert |"Content-Range"| == |"Accept-Ranges"| == 13 && |"Content-Length"| == 14 && |"Content-Type"| == 12 && |"ETag"| == 4;
  }

  /**
   * `bytes=a-b` with 0 <= a <= b < size and b != 0, without a matching tag,
   * gets 206 with Content-Length b - a + 1, Content-Range "bytes a-b/size"
   * and for GET exactly the bytes a..b.
   */
  lemma PartialContentForValidRange(st: FileStat, req: Request, contentType: string, a: nat, b: nat)
    requires req.ifNoneMatch != Some(Etag(st.size, st.mtimeMs))
    requires req.range == Some(BytesUnit + NatToString(a) + "-" + NatToString(b))
    requires a <= b < st.size && b != 0
    ensures var d := Decide(st, req, contentType);
      && d.status == Some(206)
      && d.headers["Content-Length"] == NatToString(b - a + 1)
      && d.headers["Content-Range"] == "bytes " + NatToString(a) + "-" + NatToString(b) + "/" + NatToString(st.size)
      && d.headers["Accept-Ranges"] == "bytes"
      && d.body == if req.verb == "HEAD" then Empty else FileSlice(a, b)
  {
    var r := ByteRange(a, b);
    assert Decide(st, req, contentType)
      == Decision(Some(206), RangeHeaders(st, r, contentType), if req.verb == "HEAD" then Empty else FileSlice(a, b)) by {
      assert ParseRange(req.range.value, st.size) == r by { RangeOfNumerals(a, b, st.size); }
    }
    var h := RangeHeaders(st, r, contentType);
    assert h["Content-Length"] == IntToString(ChunkSize(r)) && h["Content-Range"] == ContentRange(r, st.size)
      && h["Accept-Ranges"] == "bytes" by {
      RangeHeaderValues(st, r, contentType);
    }
    assert IntToString(ChunkSize(r)) == NatToString(b - a + 1);
    assert IntToString(b) == NatToString(b);
  }

  /**
   * Without a Range and without a matching tag the status is left as it was
   * (the server's default 200), Content-Length is the file size, and the
   * response allows any origin.
   */
  lemma FullFileWithoutRange(st: FileStat, req: Request, contentType: string)
    requires req.ifNoneMatch != Some(Etag(st.size, st.mtimeMs))
    requires !HasRange(req)
    ensures var d := Decide(st, req, contentType);
      && d.status == None
      && d.headers["Content-Length"] == NatToString(st.size)
      && d.headers["Access-Control-Allow-Origin"] == "*"
      && d.headers["Content-Type"] == contentType
      && d.headers["ETag"] == Etag(st.size, st.mtimeMs)
      && d.body == if req.verb == "HEAD" then Empty else WholeFile
  {
  }

  /** Every answer but 304 carries the entity tag; the 304 answer carries only Last-Modified. */
  lemma EtagUnlessNotModified(st: FileStat, req: Request, contentType: string)
    ensures var d := Decide(st, req, contentType);
      && ("ETag" in d.headers <==> d.status != Some(304))
      && ("ETag" in d.headers ==> d.headers["ETag"] == Etag(st.size, st.mtimeMs))
  {
  }

  /** Only the full response sets Access-Control-Allow-Origin, and only it leaves the status alone. */
  lemma CorsOnlyOnFullFile(st: FileStat, req: Request, contentType: string)
    ensures var d := Decide(st, req, contentType);
      && ("Access-Control-Allow-Origin" in d.headers <==> req.ifNoneMatch != Some(Etag(st.size, st.mtimeMs)) && !HasRange(req))
      && ("Access-Control-Allow-Origin" in d.headers <==> d.status.None?)
  {
  }

  /** An empty Range header is no Range header. */
  lemma EmptyRangeIsNoRange(st: FileStat, verb: string, inm: Option<string>, contentType: string)
    ensures Decide(st, Request(verb, inm, Some("")), contentType) == Decide(st, Request(verb, inm, None), contentType)
  {
  }
}

=== FILE: http.dfy ===
/**
 * The values the media route reads and writes, and the server response it
 * fills in: a status code, a header map and, once `end` is called, what the
 * response carries as its body.
 */
module Http {

  /** The Content-Type values of JSON and HTML answers. */
  const JsonType: string := "application/json; charset=utf-8"
  const HtmlType: string := "text/html; charset=utf-8"

  /** One embedded picture of an audio file: its declared image format ("" when absent) and its bytes. */
  datatype Picture = Picture(format: string, data: seq<bv8>)

  /** A field value of the parsed metadata object. */
  datatype Value =
    | Null
    | Flag(b: bool)
    | Number(n: int)
    | Text(s: string)
    | Items(items: seq<Value>)
    | Pictures(pics: seq<Picture>)
    | Obj(fields: map<string, Value>)   // a nested object, such as a track's {no, of}

  /** JavaScript truthiness of a value, as `if (v)` and `v || d` test it. */
  predicate Truthy(v: Value) {
    match v
    case Null => false
    case Flag(b) => b
    case Number(n) => n != 0
    case Text(s) => s != ""
    case Items(_) => true
    case Pictures(_) => true
    case Obj(_) => true
  }

  /** One entry of a directory listing. */
  datatype Entry = Entry(filename: string, isdir: bool)

  /** What a response carries once it has been ended. */
  datatype Body =
    | Empty                                 // `res.end()` with nothing
    | FileSlice(start: int, end: int)       // a read stream opened on bytes [start, end] and piped
    | WholeFile                             // a read stream opened on the whole file and piped
    | Html(text: string)
    | JsonRecord(fields: map<string, Value>)  // JSON.stringify of a metadata object
    | JsonListing(entries: seq<Entry>)        // JSON.stringify of a directory listing
    | InfoPage(fields: map<string, Value>)    // the info template rendered with a metadata object
    | Image(data: seq<bv8>)

  /** Whether and how the exchange has been finished. */
  datatype Ending =
    | Open
    | Sent(body: Body)
    | NotFoundSent   // the `res.notfound()` helper

  class Response {
    var status: int
    var headers: map<string, string>
    var ending: Ending

    /** A fresh response: status 200, no header, not yet ended. */
    constructor ()
      ensures status == 200 && headers == map[] && ending == Open
    {
      status := 200;
      headers := map[];
      ending := Open;
    }

    /** `res.setHeader(name, value)`: a later value for the same name replaces the earlier one. */
    method SetHeader(name: string, value: string)
      modifies this
      ensures headers == old(headers)[name := value]
      ensures status == old(status) && ending == old(ending)
    {
      headers := headers[name := value];
    }

    /** `res.end(body)`. */
    method End(body: Body)
      modifies this
      ensures ending == Sent(body)
      ensures status == old(status) && headers == old(headers)
    {
      ending := Sent(body);
    }

    /**
     * The server's not-found helper, as far as the route sees it: the response
     * is finished as not found. Whatever the helper writes itself (its 404
     * status among it) is represented by the `NotFoundSent` ending alone.
     */
    method NotFound()
      modifies this
      ensures ending == NotFoundSent
      ensures status == old(status) && headers == old(headers)
    {
      ending := NotFoundSent;
    }
  }
}

=== FILE: listing.dfy ===
/**
 * A directory answer (routes/media.js, the statall callback and
 * `createprettyhtml`): JSON of the entries, or an HTML page with a link to
 * the parent followed by one link per entry. `encodeURIComponent` and
 * `path.basename` are parameters; what the page adds on top of the encoder
 * is turning each "%2F" back into "/".
 */
module Listing {
  import opened Strings
  import opened Http

  const PageHead: string :=
    "<!doctype html><html><head><link rel=\"stylesheet\" href=\"/css/style.css\" />"
    + "<meta name=\"viewport\" content=\"width=device-width, initial-scale=1, maximum-scale=1, user-scalable=0\" />"
    + "</head><body><div id=\"container\"><div class=\"column\">"

  const PageTail: string := "</div></div></body></html>"

  const MediaPrefix: string := "/media"

  const ParentDir: string := "../"

  /** `util.format('<a href="%s">%s</a>\n', url, name)`. */
  function Link(url: string, name: string): string {
    "<a href=\"" + url + "\">" + name + "</a>\n"
  }

  /** The link target of an entry: the encoded name with its slashes restored, under /media. */
  function EntryUrl(e: Entry, encode: string -> string): (url: string)
    ensures |url| >= |MediaPrefix| && url[..|MediaPrefix|] == MediaPrefix
  {
    MediaPrefix + UnescapeSlashes(encode(e.filename)) + (if e.isdir then "/" else "")
  }

  /** The link text of an entry: the last segment of its name. */
  function EntryName(e: Entry, basename: string -> string): (n: string)
    ensures var b := basename(e.filename);
      |n| == |b| + (if e.isdir then 1 else 0) && n[..|b|] == b && (e.isdir ==> n[|b|] == '/')
  {
    basename(e.filename) + (if e.isdir then "/" else "")
  }

  function EntryLink(e: Entry, encode: string -> string, basename: string -> string): string {
    Link(EntryUrl(e, encode), EntryName(e, basename))
  }

  /** The texts f gives the entries, one after the other in the given order. */
  function ConcatMap(es: seq<Entry>, f: Entry -> string): string {
    if es == [] then "" else ConcatMap(es[..|es| - 1], f) + f(es[|es| - 1])
  }

  /** The links of the entries, one after the other in the given order. */
  function EntryLinks(es: seq<Entry>, encode: string -> string, basename: string -> string): string {
    ConcatMap(es, e => EntryLink(e, encode, basename))
  }

  /** The whole HTML page for a directory. */
  function PrettyHtml(es: seq<Entry>, encode: string -> string, basename: string -> string): string {
    PageHead + Link(ParentDir, ParentDir) + EntryLinks(es, encode, basename) + PageTail
  }

  /** `createprettyhtml`: builds the page by appending to a string, one link per entry. */
  method CreatePrettyHtml(stats: seq<Entry>, encode: string -> string, basename: string -> string)
    returns (s: string)
    ensures s == PrettyHtml(stats, encode, basename)
  {
    s := PageHead;
    s := s + Link(ParentDir, ParentDir);
    ghost var top := s;
    for i := 0 to |stats|
      invariant s == top + EntryLinks(stats[..i], encode, basename)
    {
      var stat := stats[i];
      var url, name := LinkParts(stat, encode, basename);
      EntryLinksSnoc(stats, i, encode, basename);
      s := s + Link(url, name);
    }
    assert stats[..|stats|] == stats;
    s := s + PageTail;
  }

  /** The target and text of one entry's link, a directory getting a trailing "/" on both. */
  method LinkParts(stat: Entry, encode: string -> string, basename: string -> string) returns (url: string, name: string)
    ensures url == EntryUrl(stat, encode) && name == EntryName(stat, basename)
  {
    url := MediaPrefix + UnescapeSlashes(encode(stat.filename));
    name := basename(stat.filename);
    if stat.isdir {
      url := url + "/";
      name := name + "/";
    }
  }

  lemma EntryLinksSnoc(es: seq<Entry>, i: nat, encode: string -> string, basename: string -> string)
    requires i < |es|
    ensures EntryLinks(es[..i + 1], encode, basename) == EntryLinks(es[..i], encode, basename) + EntryLink(es[i], encode, basename)
  {
    assert es[..i + 1][..i] == es[..i];
  }

  /** The directory branch: JSON of the entries or the HTML page, chosen by the json flag. */
  method ServeListing(res: Response, json: bool, entries: seq<Entry>, encode: string -> string, basename: string -> string)
    modifies res
    ensures res.status == old(res.status)
    ensures res.headers == old(res.headers)["Content-Type" := if json then JsonType else HtmlType]
    ensures res.ending == Sent(if json then JsonListing(entries) else Html(PrettyHtml(entries, encode, basename)))
  {
    if json {
      res.SetHeader("Content-Type", JsonType);
      res.End(JsonListing(entries));
    } else {
      var s := CreatePrettyHtml(entries, encode, basename);
      res.SetHeader("Content-Type", HtmlType);
      res.End(Html(s));
    }
  }

  /** The texts of two runs of entries are the texts of the first run followed by those of the second. */
  lemma {:induction false} ConcatMapAppend(xs: seq<Entry>, ys: seq<Entry>, f: Entry -> string)
    ensures ConcatMap(xs + ys, f) == ConcatMap(xs, f) + ConcatMap(ys, f)
    decreases |ys|
  {
    if ys == [] {
      assert xs + ys == xs;
    } else {
      var zs := xs + ys;
      assert zs[..|zs| - 1] == xs + ys[..|ys| - 1];
      ConcatMapAppend(xs, ys[..|ys| - 1], f);
    }
  }

  /** The text of a run with x in it is the text before x, then x's, then the text after it. */
  lemma ConcatMapAround(xs: seq<Entry>, x: Entry, ys: seq<Entry>, f: Entry -> string)
    ensures ConcatMap(xs + [x] + ys, f) == ConcatMap(xs, f) + f(x) + ConcatMap(ys, f)
  {
    ConcatMapAppend(xs + [x], ys, f);
    assert (xs + [x])[..|xs|] == xs;
  }

  /**
   * Between the parent link and the end of the page, each entry's link comes
   * after the links of the entries before it and before those after it: one
   * link per entry, in order.
   */
  lemma ListingOrder(before: seq<Entry>, e: Entry, after: seq<Entry>, encode: string -> string, basename: string -> string)
    ensures EntryLinks(before + [e] + after, encode, basename)
      == EntryLinks(before, encode, basename) + EntryLink(e, encode, basename) + EntryLinks(after, encode, basename)
  {
    ConcatMapAround(before, e, after, e => EntryLink(e, encode, basename));
  }

  /** A link is the anchor tag around the target, then the text, then the closing tag and a newline. */
  lemma LinkShape(url: string, name: string)
    ensures var s := Link(url, name);
      && |s| == |url| + |name| + 16
      && s[..9] == "<a href=\"" && s[9..9 + |url|] == url
      && s[9 + |url|..11 + |url|] == "\">" && s[11 + |url|..|s| - 5] == name
      && s[|s| - 5..] == "</a>\n"
  {
    var s := Link(url, name);
    assert s == "<a href=\"" + url + "\">" + name + "</a>\n";
  }

  /** The page opens with the fixed head and closes with the fixed tail, whatever the entries. */
  lemma PageFrame(es: seq<Entry>, encode: string -> string, basename: string -> string)
    ensures var p := PrettyHtml(es, encode, basename);
      && |p| >= |PageHead| + |PageTail|
      && p[..|PageHead|] == PageHead && p[|p| - |PageTail|..] == PageTail
  {
    var body := Link(ParentDir, ParentDir) + EntryLinks(es, encode, basename);
    var p := PrettyHtml(es, encode, basename);
    assert p == PageHead + body + PageTail;
  }

  /** A directory entry differs from a file of the same name by a trailing "/" on both the target and the text. */
  lemma DirectoryGetsSlash(filename: string, encode: string -> string, basename: string -> string)
    ensures EntryUrl(Entry(filename, true), encode) == EntryUrl(Entry(filename, false), encode) + "/"
    ensures EntryName(Entry(filename, true), basename) == EntryName(Entry(filename, false), basename) + "/"
  {
  }

  /**
   * When the encoder writes no "/" (as encodeURIComponent does not), escaping
   * the slashes of the target again gives back the encoded file name.
   */
  lemma EntryUrlRecoversEncoding(e: Entry, encode: string -> string)
    requires '/' !in encode(e.filename)
    ensures var url := EntryUrl(e, encode);
      var n := if e.isdir then 1 else 0;
      |MediaPrefix| + n <= |url| && EscapeSlashes(url[|MediaPrefix|..|url| - n]) == encode(e.filename)
  {
    var core := UnescapeSlashes(encode(e.filename));
    var url := EntryUrl(e, encode);
    var n := if e.isdir then 1 else 0;
    assert url[|MediaPrefix|..|url| - n] == core;
    EscapeUnescapeSlashes(encode(e.filename));
  }
}

=== FILE: ranges.dfy ===
/**
 * The Range header as routes/media.js reads it: the single-range form
 * `bytes=<start>-<end>` of section 2.1 of RFC 7233, read leniently. A side
 * that is missing, not a number or zero takes its default (start 0, end
 * size - 1); a suffix range `bytes=-n` is read as start 0, end n; nothing is
 * checked against the file size.
 */
module Ranges {
  import opened Wrappers
  import opened Decimal
  import opened Strings

  /** The bounds a range response announces and streams: bytes start..end, both included. */
  datatype ByteRange = ByteRange(start: nat, end: int)

  const BytesUnit: string := "bytes="

  /** The header with its first "bytes=" taken out, split on '-'. */
  function RangePieces(header: string): (parts: seq<string>)
    ensures |parts| >= 1
    ensures forall i :: 0 <= i < |parts| ==> '-' !in parts[i]
  {
    Split(ReplaceFirst(header, BytesUnit, ""), '-')
  }

  /**
   * The end a piece selects: the piece's number, or size - 1 when the piece
   * is empty, not a number or zero.
   */
  function EndOf(piece: string, size: nat): (end: int)
    requires '-' !in piece
    ensures end == size - 1 || end > 0
    ensures piece == "" || ParseInt(piece).None? || ParseInt(piece) == Some(0) ==> end == size - 1
    ensures NonNumeric(piece) ==> end == size - 1
    ensures ParseInt(piece).Some? && ParseInt(piece).value != 0 ==> end == ParseInt(piece).value
  {
    if piece == "" then size - 1
    else match ParseInt(piece)
      case None => size - 1
      case Some(v) => if v == 0 then size - 1 else v
  }

  /** The range a Range header selects in a file of `size` bytes. */
  function ParseRange(header: string, size: nat): (r: ByteRange)
    ensures r.end == size - 1 || r.end > 0
    ensures r.start == ParseInt(RangePieces(header)[0]).GetOr(0)
    ensures NonNumeric(RangePieces(header)[0]) ==> r.start == 0
    ensures |RangePieces(header)| == 1 ==> r.end == size - 1
    ensures |RangePieces(header)| > 1 ==> r.end == EndOf(RangePieces(header)[1], size)
  {
    var parts := RangePieces(header);
    // a start that is missing, not a number or zero is 0; a missing second
    // piece (undefined) and an empty one are both falsy
    ByteRange(ParseInt(parts[0]).GetOr(0), EndOf(if |parts| > 1 then parts[1] else "", size))
  }

  /** The number of bytes announced as Content-Length: end - start + 1, not clamped. */
  function ChunkSize(r: ByteRange): (n: int)
    ensures n <= r.end + 1 && (r.start <= r.end ==> n >= 1)
  {
    r.end - r.start + 1
  }

  /** The Content-Range value "bytes start-end/size". */
  function ContentRange(r: ByteRange, size: nat): (s: string)
    ensures |s| > 6 && s[..6] == "bytes "
  {
    "bytes " + NatToString(r.start) + "-" + IntToString(r.end) + "/" + NatToString(size)
  }

  lemma NumeralHasNoDash(n: nat)
    ensures '-' !in NatToString(n)
  {
    var s := NatToString(n);
    forall i | 0 <= i < |s| ensures s[i] != '-' {
      assert IsDigit(s[i]);
    }
  }

  /** A header that starts with "bytes=" loses exactly that prefix before the split. */
  lemma PiecesAfterUnit(t: string)
    ensures RangePieces(BytesUnit + t) == Split(t, '-')
  {
    var h := BytesUnit + t;
    assert h[0..|BytesUnit|] == BytesUnit;
    assert OccursAt(h, BytesUnit, 0);
    assert h[|BytesUnit|..] == t;
    assert "" + t == t;
  }

  /** The pieces of "bytes=" followed by two dash-free parts joined by '-'. */
  lemma PiecesOfPair(x: string, y: string)
    requires '-' !in x && '-' !in y
    ensures RangePieces(BytesUnit + x + "-" + y) == [x, y]
  {
    assert BytesUnit + x + "-" + y == BytesUnit + (x + "-" + y);
    PiecesAfterUnit(x + "-" + y);
    assert Join([x, y], '-') == x + "-" + y;
    SplitJoin([x, y], '-');
  }

  /** A header whose pieces are x and y selects x's number (0 by default) up to y's end. */
  lemma RangeOfPieces(header: string, x: string, y: string, size: nat)
    requires RangePieces(header) == [x, y]
    ensures '-' !in x && '-' !in y
    ensures ParseRange(header, size) == ByteRange(ParseInt(x).GetOr(0), EndOf(y, size))
  {
    assert RangePieces(header)[0] == x && RangePieces(header)[1] == y;
  }

  /**
   * `bytes=a-b` with b != 0 selects exactly [a, b], whatever the file size:
   * no bound is checked, so an end past the file passes through.
   */
  lemma RangeOfNumerals(a: nat, b: nat, size: nat)
    requires b != 0
    ensures ParseRange(BytesUnit + NatToString(a) + "-" + NatToString(b), size) == ByteRange(a, b)
  {
    var x, y := NatToString(a), NatToString(b);
    var h := BytesUnit + x + "-" + y;
    assert RangePieces(h) == [x, y] by {
      NumeralHasNoDash(a);
      NumeralHasNoDash(b);
      PiecesOfPair(x, y);
    }
    RangeOfPieces(h, x, y, size);
    assert ParseInt(x) == Some(a) by { ParseIntOfNatToString(a); }
    assert EndOf(y, size) == b by { ParseIntOfNatToString(b); }
  }

  /** `bytes=a-0` is read as an open range: the end 0 is replaced by size - 1. */
  lemma RangeZeroEnd(a: nat, size: nat)
    ensures ParseRange(BytesUnit + NatToString(a) + "-0", size) == ByteRange(a, size - 1)
  {
    var x, zero := NatToString(a), NatToString(0);
    var h := BytesUnit + x + "-0";
    assert RangePieces(h) == [x, zero] by {
      assert zero == "0";
      assert h == BytesUnit + x + "-" + zero;
      NumeralHasNoDash(a);
      NumeralHasNoDash(0);
      PiecesOfPair(x, zero);
    }
    RangeOfPieces(h, x, zero, size);
    assert ParseInt(x) == Some(a) by { ParseIntOfNatToString(a); }
    assert EndOf(zero, size) == size - 1 by { ParseIntOfNatToString(0); }
  }

  /** `bytes=a-` runs to the last byte. */
  lemma RangeOpenEnd(a: nat, size: nat)
    ensures ParseRange(BytesUnit + NatToString(a) + "-", size) == ByteRange(a, size - 1)
  {
    var x := NatToString(a);
    var h := BytesUnit + x + "-";
    assert RangePieces(h) == [x, ""] by {
      assert h == BytesUnit + x + "-" + "";
      NumeralHasNoDash(a);
      PiecesOfPair(x, "");
    }
    RangeOfPieces(h, x, "", size);
    assert ParseInt(x) == Some(a) by { ParseIntOfNatToString(a); }
  }

  /** `bytes=a-y` with an end that is not a number runs from a to the last byte. */
  lemma RangeNonNumericEnd(a: nat, y: string, size: nat)
    requires '-' !in y && NonNumeric(y)
    ensures ParseRange(BytesUnit + NatToString(a) + "-" + y, size) == ByteRange(a, size - 1)
  {
    var x := NatToString(a);
    var h := BytesUnit + x + "-" + y;
    assert RangePieces(h) == [x, y] by {
      NumeralHasNoDash(a);
      PiecesOfPair(x, y);
    }
    RangeOfPieces(h, x, y, size);
    assert ParseInt(x) == Some(a) by { ParseIntOfNatToString(a); }
  }

  /** `bytes=x-b` with a start that is not a number and b != 0 selects [0, b]. */
  lemma RangeNonNumericStart(x: string, b: nat, size: nat)
    requires '-' !in x && NonNumeric(x)
    requires b != 0
    ensures ParseRange(BytesUnit + x + "-" + NatToString(b), size) == ByteRange(0, b)
  {
    var y := NatToString(b);
    var h := BytesUnit + x + "-" + y;
    assert RangePieces(h) == [x, y] by {
      NumeralHasNoDash(b);
      PiecesOfPair(x, y);
    }
    RangeOfPieces(h, x, y, size);
    assert EndOf(y, size) == b by { ParseIntOfNatToString(b); }
  }

  /**
   * The suffix form `bytes=-n`, which section 2.1 of RFC 7233 reads as the
   * last n bytes, is read here as the bytes 0..n.
   */
  lemma RangeSuffixForm(n: nat, size: nat)
    requires n != 0
    ensures ParseRange(BytesUnit + "-" + NatToString(n), size) == ByteRange(0, n)
  {
    var y := NatToString(n);
    var h := BytesUnit + "-" + y;
    assert RangePieces(h) == ["", y] by {
      assert h == BytesUnit + "" + "-" + y;
      NumeralHasNoDash(n);
      PiecesOfPair("", y);
    }
    RangeOfPieces(h, "", y, size);
    assert EndOf(y, size) == n by { ParseIntOfNatToString(n); }
  }

  /** A header with no '-' after the unit has no end side: the range runs to the last byte. */
  lemma RangeWithoutDash(t: string, size: nat)
    requires '-' !in t
    ensures ParseRange(BytesUnit + t, size).end == size - 1
    ensures ParseRange(BytesUnit + t, size).start == ParseInt(t).GetOr(0)
  {
    PiecesAfterUnit(t);
    assert Join([t], '-') == t;
    SplitJoin([t], '-');
  }

  /** For a range inside the file the announced length is its exact byte count. */
  lemma ChunkSizeOfValidRange(a: nat, b: nat, size: nat)
    requires a <= b < size && b != 0
    ensures var r := ParseRange(BytesUnit + NatToString(a) + "-" + NatToString(b), size);
      ChunkSize(r) == b - a + 1 && 1 <= ChunkSize(r) <= size
  {
    RangeOfNumerals(a, b, size);
  }
}

=== FILE: strings.dfy ===
/**
 * The JavaScript string operations routes/media.js applies to header values
 * and file names: `split` on one character, `replace` of the first match of
 * a literal pattern, and the global `replace(/%2F/g, '/')`.
 */
module Strings {
  import opened Wrappers

  /** `s.split(sep)`: the pieces between the separators, the empty ones included. */
  function Split(s: string, sep: char): (parts: seq<string>)
    ensures |parts| >= 1
    ensures forall i :: 0 <= i < |parts| ==> sep !in parts[i]
  {
    if s == [] then [[]]
    else
      var rest := Split(s[1..], sep);
      if s[0] == sep then [[]] + rest else [[s[0]] + rest[0]] + rest[1..]
  }

  /** `parts.join(sep)`. */
  function Join(parts: seq<string>, sep: char): string
    requires |parts| >= 1
  {
    if |parts| == 1 then parts[0] else parts[0] + [sep] + Join(parts[1..], sep)
  }

  /** Joining the pieces back gives the string that was split. */
  lemma {:induction false} JoinSplit(s: string, sep: char)
    ensures Join(Split(s, sep), sep) == s
  {
    if s != [] {
      var rest := Split(s[1..], sep);
      JoinSplit(s[1..], sep);
      if s[0] == sep {
        assert Split(s, sep)[1..] == rest;
      } else if |rest| > 1 {
        assert Split(s, sep)[1..] == rest[1..];
        assert Join(rest, sep) == rest[0] + [sep] + Join(rest[1..], sep);
      }
    }
  }

  /** Splitting a string that starts with a separator-free piece keeps that piece in front. */
  lemma {:induction false} SplitAfterPiece(x: string, r: string, sep: char)
    requires sep !in x
    ensures var p := Split(r, sep); Split(x + r, sep) == [x + p[0]] + p[1..]
  {
    if x == [] {
      var p := Split(r, sep);
      assert x + r == r && x + p[0] == p[0];
      assert [p[0]] + p[1..] == p;
    } else {
      var p := Split(r, sep);
      assert (x + r)[0] == x[0] && x[0] != sep;
      assert (x + r)[1..] == x[1..] + r;
      SplitAfterPiece(x[1..], r, sep);
      assert [x[0]] + (x[1..] + p[0]) == x + p[0];
    }
  }

  /** Splitting separator-free pieces joined by the separator gives the pieces back. */
  lemma {:induction false} SplitJoin(parts: seq<string>, sep: char)
    requires |parts| >= 1
    requires forall i :: 0 <= i < |parts| ==> sep !in parts[i]
    ensures Split(Join(parts, sep), sep) == parts
  {
    if |parts| == 1 {
      SplitAfterPiece(parts[0], [], sep);
      assert parts[0] + [] == parts[0];
    } else {
      var tail := Join(parts[1..], sep);
      SplitJoin(parts[1..], sep);
      assert ([sep] + tail)[1..] == tail;
      assert Split([sep] + tail, sep) == [[]] + parts[1..];
      assert parts[0] + [sep] + tail == parts[0] + ([sep] + tail);
      SplitAfterPiece(parts[0], [sep] + tail, sep);
      assert parts[0] + [] == parts[0];
    }
  }

  /** pat occurs in s at position i. */
  predicate OccursAt(s: string, pat: string, i: nat) {
    i + |pat| <= |s| && s[i..i + |pat|] == pat
  }

  /** The leftmost position at or after `from` where pat occurs in s. */
  function FindFrom(s: string, pat: string, from: nat): (r: Option<nat>)
    ensures r.Some? ==> from <= r.value && OccursAt(s, pat, r.value)
    ensures forall j: nat :: from <= j && (r.None? || j < r.value) ==> !OccursAt(s, pat, j)
    decreases |s| - from
  {
    if from + |pat| > |s| then None
    else if OccursAt(s, pat, from) then Some(from)
    else FindFrom(s, pat, from + 1)
  }

  /** `s.replace(/pat/, rep)` for a literal pattern: only the leftmost occurrence is replaced. */
  function ReplaceFirst(s: string, pat: string, rep: string): (r: string)
    ensures (forall j: nat :: !OccursAt(s, pat, j)) ==> r == s
    ensures OccursAt(s, pat, 0) ==> r == rep + s[|pat|..]
    ensures forall i: nat ::
      (OccursAt(s, pat, i) && (forall j: nat :: j < i ==> !OccursAt(s, pat, j)) ==> r == s[..i] + rep + s[i + |pat|..])
  {
    match FindFrom(s, pat, 0)
    case None => s
    case Some(i) => s[..i] + rep + s[i + |pat|..]
  }

  const EscapedSlash: string := "%2F"

  /** `s.replace(/%2F/g, '/')`: every "%2F", taken left to right without overlap, becomes "/". */
  function UnescapeSlashes(s: string): (r: string)
    ensures |r| <= |s|
  {
    if |s| >= 3 && s[..3] == EscapedSlash then "/" + UnescapeSlashes(s[3..])
    else if s == [] then []
    else [s[0]] + UnescapeSlashes(s[1..])
  }

  /** The inverse direction: every "/" written as "%2F", as `encodeURIComponent` writes it. */
  function EscapeSlashes(s: string): (r: string)
    ensures '/' !in r
  {
    if s == [] then []
    else if s[0] == '/' then EscapedSlash + EscapeSlashes(s[1..])
    else [s[0]] + EscapeSlashes(s[1..])
  }

  /** A string without "/" (an encoded URI component) is recovered by escaping the slashes again. */
  lemma {:induction false} EscapeUnescapeSlashes(s: string)
    requires '/' !in s
    ensures EscapeSlashes(UnescapeSlashes(s)) == s
  {
    if |s| >= 3 && s[..3] == EscapedSlash {
      assert '/' !in s[3..] by { assert forall c :: c in s[3..] ==> c in s; }
      EscapeUnescapeSlashes(s[3..]);
      assert ("/" + UnescapeSlashes(s[3..]))[1..] == UnescapeSlashes(s[3..]);
      assert s == s[..3] + s[3..];
    } else if s != [] {
      assert '/' !in s[1..] by { assert forall c :: c in s[1..] ==> c in s; }
      EscapeUnescapeSlashes(s[1..]);
      assert ([s[0]] + UnescapeSlashes(s[1..]))[1..] == UnescapeSlashes(s[1..]);
    }
  }

  /** The first character of the unescaped string. */
  lemma UnescapeSlashesHead(s: string)
    requires s != []
    ensures var r := UnescapeSlashes(s);
      r != [] && r[0] == if |s| >= 3 && s[..3] == EscapedSlash then '/' else s[0]
  {
  }

  /** A string that does not start with "%2F" does not unescape to one that does. */
  lemma NoEscapeAtStart(s: string)
    requires s != [] && !(|s| >= 3 && s[..3] == EscapedSlash)
    ensures !OccursAt(UnescapeSlashes(s), EscapedSlash, 0)
  {
    var r := UnescapeSlashes(s);
    if |r| >= 3 {
      var rest := UnescapeSlashes(s[1..]);
      assert r[0] == s[0] && r[1] == rest[0] && r[2] == rest[1] by { UnescapeSlashesCons(s); }
      if s[0] == '%' && rest[0] == '2' {
        var t := s[1..];
        assert t[0] == '2' by { UnescapeSlashesHead(t); }
        if |t| >= 2 {
          ThirdOfEscape(s);
        }
        SecondAfterTwo(t);
      }
      NotEscapeStart(r);
    }
  }

  /** A string starting with "%2" but not with "%2F" has something other than 'F' third. */
  lemma ThirdOfEscape(s: string)
    requires |s| >= 3 && s[0] == '%' && s[1] == '2' && s[..3] != EscapedSlash
    ensures s[2] != 'F'
  {
    assert s[..3] == [s[0], s[1], s[2]];
  }

  /** A string whose first three characters are not '%', '2', 'F' does not start with "%2F". */
  lemma NotEscapeStart(r: string)
    requires |r| >= 3 && (r[0] != '%' || r[1] != '2' || r[2] != 'F')
    ensures !OccursAt(r, EscapedSlash, 0)
  {
    assert r[..3][0] == r[0] && r[..3][1] == r[1] && r[..3][2] == r[2];
  }

  /** After a leading '2' that is not followed by 'F', the second character unescapes to something other than 'F'. */
  lemma SecondAfterTwo(t: string)
    requires t != [] && t[0] == '2' && !(|t| >= 2 && t[1] == 'F')
    ensures |UnescapeSlashes(t)| >= 2 ==> UnescapeSlashes(t)[1] != 'F'
  {
    assert !(|t| >= 3 && t[..3] == EscapedSlash) by {
      if |t| >= 3 { assert t[..3][0] == '2'; }
    }
    UnescapeSlashesCons(t);
    if |t| >= 2 {
      UnescapeSlashesHead(t[1..]);
    }
  }

  /** Away from a "%2F", the first character passes through unchanged. */
  lemma UnescapeSlashesCons(s: string)
    requires s != [] && !(|s| >= 3 && s[..3] == EscapedSlash)
    ensures UnescapeSlashes(s) == [s[0]] + UnescapeSlashes(s[1..])
  {
  }

  /** No "%2F" survives the replacement, even one formed across a replaced slash. */
  lemma {:induction false} UnescapeSlashesLeavesNone(s: string)
    ensures forall j: nat :: !OccursAt(UnescapeSlashes(s), EscapedSlash, j)
  {
    var r := UnescapeSlashes(s);
    if |s| >= 3 && s[..3] == EscapedSlash {
      var rest := UnescapeSlashes(s[3..]);
      UnescapeSlashesLeavesNone(s[3..]);
      forall j: nat ensures !OccursAt(r, EscapedSlash, j) {
        if j > 0 && j + 3 <= |r| {
          assert r[j..j + 3] == rest[j - 1..j + 2];
          assert !OccursAt(rest, EscapedSlash, j - 1);
        }
      }
    } else if s != [] {
      var rest := UnescapeSlashes(s[1..]);
      UnescapeSlashesLeavesNone(s[1..]);
      forall j: nat ensures !OccursAt(r, EscapedSlash, j) {
        if j == 0 {
          NoEscapeAtStart(s);
        } else if j + 3 <= |r| {
          assert r[j..j + 3] == rest[j - 1..j + 2];
          assert !OccursAt(rest, EscapedSlash, j - 1);
        }
      }
    }
  }
}

=== FILE: tags.dfy ===
/**
 * The metadata callback of routes/media.js (`onmetadata`): the parsed
 * metadata object is completed in place (picture list, request path, base
 * name, whether there is a picture) and then exactly one answer is chosen,
 * in the order tags, info, art, not found.
 */
module Tags {
  import opened Wrappers
  import opened Http

  /** The query flags that route a request to the metadata callback. */
  datatype Flags = Flags(tags: bool, info: bool, art: bool)

  /** The fields the callback writes over whatever the parser produced. */
  const Derived: set<string> := {"picture", "request", "basename", "haspicture"}

  /** `Object.keys(v).length` for a value that is not null. */
  function KeyCount(v: Value): nat {
    match v
    case Null => 0
    case Flag(_) => 0
    case Number(_) => 0
    case Text(s) => |s|
    case Items(xs) => |xs|
    case Pictures(ps) => |ps|
    case Obj(fields) => |fields.Keys|
  }

  /** `metadata.picture[0]` when it is a picture. */
  function FirstPicture(v: Value): (p: Option<Picture>)
    ensures p.Some? <==> v.Pictures? && |v.pics| > 0
  {
    if v.Pictures? && |v.pics| > 0 then Some(v.pics[0]) else None
  }

  /** The Content-Type of an artwork answer. */
  function ArtType(p: Picture): (t: string)
    ensures |t| > 6 && t[..6] == "image/"
  {
    "image/" + (if p.format == "" then "xyz" else p.format)
  }

  /** The object after the fields written for every mode. */
  function Augment(fields: map<string, Value>, pathname: string, basename: string): (m: map<string, Value>)
    ensures m.Keys == fields.Keys + Derived
    ensures forall k :: k in fields && k !in Derived ==> m[k] == fields[k]
    ensures Truthy(m["picture"]) && m["request"] == Text(pathname) && m["basename"] == Text(basename)
    ensures "picture" in fields && Truthy(fields["picture"]) ==> m["picture"] == fields["picture"]
  {
    var picture := if "picture" in fields && Truthy(fields["picture"]) then fields["picture"] else Pictures([]);
    fields["picture" := picture]["request" := Text(pathname)]["basename" := Text(basename)]
      ["haspicture" := Flag(KeyCount(picture) > 0)]
  }

  /** The object as the chosen mode leaves it: without its pictures for tags, with the size for info. */
  function Final(m: map<string, Value>, flags: Flags, size: Value): (f: map<string, Value>)
    ensures flags.tags ==> "picture" !in f && f.Keys == m.Keys - {"picture"}
    ensures !flags.tags && flags.info ==> f.Keys == m.Keys + {"size"} && f["size"] == size
    ensures forall k :: k in m && k != "picture" && k != "size" ==> k in f && f[k] == m[k]
  {
    if flags.tags then m - {"picture"}
    else if flags.info then m["size" := size]
    else m
  }

  /** The Content-Type the callback sets (None: it sets none) and how it ends the response. */
  datatype Reply = Reply(contentType: Option<string>, ending: Ending)

  function Answer(m: map<string, Value>, flags: Flags, size: Value): (r: Reply)
    requires "picture" in m
    ensures r.contentType.Some? <==> r.ending.Sent?
    ensures r.ending.Sent? || r.ending == NotFoundSent
  {
    if flags.tags then Reply(Some(JsonType), Sent(JsonRecord(m - {"picture"})))
    else if flags.info then Reply(Some(HtmlType), Sent(InfoPage(m["size" := size])))
    else if flags.art then
      match FirstPicture(m["picture"])
      case None => Reply(None, NotFoundSent)
      case Some(p) => Reply(Some(ArtType(p)), Sent(Image(p.data)))
    else Reply(None, NotFoundSent)
  }

  /** The metadata object the parser hands to the callback, which changes it in place. */
  class Metadata {
    var fields: map<string, Value>

    constructor (parsed: map<string, Value>)
      ensures fields == parsed
    {
      fields := parsed;
    }
  }

  /** The fields every mode writes onto the object, in place. */
  method Complete(meta: Metadata, pathname: string, basename: string)
    modifies meta
    ensures meta.fields == Augment(old(meta.fields), pathname, basename)
  {
    var picture := if "picture" in meta.fields && Truthy(meta.fields["picture"])
      then meta.fields["picture"] else Pictures([]);
    meta.fields := meta.fields["picture" := picture];
    meta.fields := meta.fields["request" := Text(pathname)];
    meta.fields := meta.fields["basename" := Text(basename)];
    meta.fields := meta.fields["haspicture" := Flag(KeyCount(meta.fields["picture"]) > 0)];
  }

  /** The callback: completes `meta`, then answers on `res` according to the flags. */
  method OnMetadata(meta: Metadata, res: Response, pathname: string, basename: string, flags: Flags, size: Value)
    modifies meta, res
    ensures meta.fields == Final(Augment(old(meta.fields), pathname, basename), flags, size)
    ensures res.status == old(res.status)
    ensures res.ending == Answer(Augment(old(meta.fields), pathname, basename), flags, size).ending
    ensures res.headers == match Answer(Augment(old(meta.fields), pathname, basename), flags, size).contentType
                           case Some(t) => old(res.headers)["Content-Type" := t]
                           case None => old(res.headers)
  {
    Complete(meta, pathname, basename);
    if flags.tags {
      meta.fields := meta.fields - {"picture"};
      res.SetHeader("Content-Type", JsonType);
      res.End(JsonRecord(meta.fields));
    } else if flags.info {
      meta.fields := meta.fields["size" := size];
      res.SetHeader("Content-Type", HtmlType);
      res.End(InfoPage(meta.fields));
    } else if flags.art {
      var pic := FirstPicture(meta.fields["picture"]);
      if pic.None? {
        res.NotFound();
        return;
      }
      res.SetHeader("Content-Type", ArtType(pic.value));
      res.End(Image(pic.value.data));
    } else {
      res.NotFound();
    }
  }

  /** Exactly one answer, chosen in the order tags, info, art, not found. */
  lemma ModePriority(fields: map<string, Value>, pathname: string, basename: string, flags: Flags, size: Value)
    ensures var r := Answer(Augment(fields, pathname, basename), flags, size);
      && (flags.tags ==> r.ending.Sent? && r.ending.body.JsonRecord?)
      && (!flags.tags && flags.info ==> r.ending.Sent? && r.ending.body.InfoPage?)
      && (!flags.tags && !flags.info && flags.art ==> r.ending == NotFoundSent || (r.ending.Sent? && r.ending.body.Image?))
      && (!flags.tags && !flags.info && !flags.art ==> r == Reply(None, NotFoundSent))
  {
  }

  /** `haspicture` is true exactly when the parser gave a non-empty picture list. */
  lemma HasPictureIffPictures(fields: map<string, Value>, pathname: string, basename: string, ps: seq<Picture>)
    requires "picture" in fields && fields["picture"] == Pictures(ps)
    ensures Augment(fields, pathname, basename)["haspicture"] == Flag(|ps| > 0)
  {
  }

  /** A missing or falsy picture field becomes an empty list, and `haspicture` is false. */
  lemma MissingPictureIsEmpty(fields: map<string, Value>, pathname: string, basename: string)
    requires "picture" !in fields || !Truthy(fields["picture"])
    ensures var m := Augment(fields, pathname, basename);
      m["picture"] == Pictures([]) && m["haspicture"] == Flag(false)
  {
  }

  /**
   * The tags answer is JSON of the completed object without its pictures:
   * every other parsed field is kept as it was.
   */
  lemma TagsOmitPictures(fields: map<string, Value>, pathname: string, basename: string, flags: Flags, size: Value)
    requires flags.tags
    ensures var m := Augment(fields, pathname, basename);
      var r := Answer(m, flags, size);
      && r.contentType == Some(JsonType)
      && r.ending.Sent? && r.ending.body.JsonRecord?
      && var rec := r.ending.body.fields;
      && "picture" !in rec
      && rec.Keys == fields.Keys + Derived - {"picture"}
      && rec["haspicture"] == m["haspicture"]
      && (forall k :: k in fields && k !in Derived ==> rec[k] == fields[k])
  {
  }

  /** Asking for art when there is no first picture is answered with not found, and no header. */
  lemma ArtWithoutPictureIsNotFound(fields: map<string, Value>, pathname: string, basename: string, flags: Flags, size: Value)
    requires !flags.tags && !flags.info && flags.art
    requires "picture" !in fields || !fields["picture"].Pictures? || fields["picture"].pics == []
    ensures Answer(Augment(fields, pathname, basename), flags, size) == Reply(None, NotFoundSent)
  {
  }

  /** The art answer is the first picture's bytes, typed "image/<format>", or "image/xyz" without a format. */
  lemma ArtIsFirstPicture(fields: map<string, Value>, pathname: string, basename: string, flags: Flags, size: Value, ps: seq<Picture>)
    requires !flags.tags && !flags.info && flags.art
    requires "picture" in fields && fields["picture"] == Pictures(ps) && |ps| > 0
    ensures var r := Answer(Augment(fields, pathname, basename), flags, size);
      && r.ending == Sent(Image(ps[0].data))
      && r.contentType == Some("image/" + if ps[0].format == "" then "xyz" else ps[0].format)
  {
  }

  /** The info answer renders the completed object, pictures included, with the size attached. */
  lemma InfoCarriesSize(fields: map<string, Value>, pathname: string, basename: string, flags: Flags, size: Value)
    requires !flags.tags && flags.info
    ensures var m := Augment(fields, pathname, basename);
      var r := Answer(m, flags, size);
      && r.contentType == Some(HtmlType)
      && r.ending == Sent(InfoPage(m["size" := size]))
      && r.ending.body.fields["size"] == size
      && "picture" in r.ending.body.fields
  {
  }
}

=== FILE: wrappers.dfy ===
/** An optional value: JavaScript's `undefined`/`NaN` on one side, a value on the other. */
module Wrappers {

  datatype Option<+T> = None | Some(value: T) {

    /** The value, or `default` when there is none. */
    function GetOr(default: T): T {
      match this
      case Some(v) => v
      case None => default
    }
  }
}
